=== FILE: README.md ===
# api_yamdb: roles, permissions and the review store, in Dafny

This project models the hand-written logic of api_yamdb, a review and rating
web API. The API covers categories, genres, titles, reviews, comments and
user accounts. The model has two parts.

1. **Accounts and permissions.** It covers the three roles an account can have
   (user, admin, moderator), their stored values and predicates, and the
   default role. It covers the bounds and the uniqueness of usernames and
   emails. It covers the three permission classes: `AdminAnonPermission`, the
   `IsAdmin` that rejects PUT, and the `IsAdmin` that also admits superusers.
   It also covers the username check that refuses "me" in any letter case, the
   username bound of the token request, and the two account serializers: the
   administrators' serializer may set the role, and the profile serializer
   treats the role as read-only.
2. **The review store.** It is an immutable database of tables keyed by
   autoincrement ids. The tables hold accounts, categories, genres, titles,
   reviews and comments, each with its declared constraints: unique slugs,
   scores from 1 to 10, at most one review per author and title, and valid
   foreign keys. Deletes cascade (CASCADE) or clear the reference (SET_NULL).
   On top of it sit the review, comment and title endpoints as pure
   functions from a store and a request to an outcome and a new store.

Every failed request leaves the store unchanged. Every store operation keeps
the store invariant `Catalog.Valid`, and so do the account saves applied to
the store (`Api.SaveAccount`, `Api.SaveProfile`).

Files, one module each:

- `http.dfy`: `Http`. Methods, safe methods, `Option`, `Result` and the failure kinds with their status codes.
- `tables.dfy`: `Tables`. A table with its key sequence: insert, filtered delete, update.
- `accounts.dfy`: `Accounts`. The account model (`users/models.py`).
- `permissions.dfy`: `Permissions`. The three permission classes.
- `account_serializers.dfy`: `AccountSerializers`. The account serializers (`users/v1/serializers.py`, `UserMeSerializer`).
- `catalog.dfy`: `Catalog`. The review models and their constraints and delete rules (`reviews/models.py`).
- `api.dfy`: `Api`. The title, review and comment viewsets and `ReviewSerializer.validate` (`api/views.py`, `api/serializers.py`).

Review creation is checked three times. First the serializer checks for a
duplicate, on POST only, and that check raises a 400. Then `perform_create`
checks again. It raises Django's own `ValidationError` outside the
serializer, so the framework answers with a 500 (`Failure.Unhandled`). Last,
the database's `unique_author_title` constraint refuses the insert
(`Failure.Integrity`). `Api.CreateReview` proves that, taken in sequence, only
the first check ever fires.

As written, the review viewset's queryset is every review. So listing the
reviews of a title returns all stored reviews. Fetching, editing or deleting a
review does not check that it belongs to the title in the path.
`Api.HandleReviews` states this. The comment endpoints likewise ignore the
title in the path (`Api.CommentsIgnoreTitle`).

Where the source names a constant the model uses the same value. The role
values are "user", "admin" and "moderator". Usernames have at most 150
characters and emails at most 254. The token username has at most 150
characters. Scores run from 1 to 10 and default to 1. A comment's string form
shows at most 50 characters.

`api/permission.py` imports `ADMIN` from a module that does not define it.
The model uses the "admin" value of `users/models.py:9` in its place.

## Model

| member | source | states |
|---|---|---|
| Accounts.RoleValue | api_yamdb/users/models.py:8-15 | each choice is stored as "user", "admin" or "moderator", within the 30-character column |
| Accounts.ParseRole | api_yamdb/users/models.py:11-15 | a submitted role is accepted exactly when it is one of the three choice values, and the accepted role stores back as that value |
| Accounts.RoleValueRoundTrip | api_yamdb/users/models.py:11-15 | parsing a stored role value gives back the role, and parsing and storing give back the submitted value |
| Accounts.DefaultRole | api_yamdb/users/models.py:31-33 | the default role stores as "user" |
| Accounts.IsUser | api_yamdb/users/models.py:35-37 | `is_user` holds exactly when the role is user |
| Accounts.IsAdmin | api_yamdb/users/models.py:39-41 | `is_admin` holds exactly when the role is admin |
| Accounts.IsModerator | api_yamdb/users/models.py:43-45 | `is_moderator` holds exactly when the role is moderator |
| Accounts.ExactlyOneRole | api_yamdb/users/models.py:35-45 | every account satisfies exactly one of `is_user`, `is_admin`, `is_moderator` |
| Accounts.NewUser | api_yamdb/users/models.py:28-33 | a new account has role user, is neither admin nor moderator, and has no staff or superuser flag |
| Accounts.StoreKeepsUnique | api_yamdb/users/models.py:17-27 | storing an account whose username and email no other account uses keeps usernames and emails unique |
| Permissions.AdminAnon | api_yamdb/api/permission.py:8-11 | safe methods are granted to every caller; an unsafe method is denied to anonymous callers, granted to admins and staff, denied to non-staff users and moderators |
| Permissions.AdminAnonReadsRoleAndStaffOnly | api_yamdb/api/permission.py:8-11 | two accounts with the same role and staff flag get the same decision |
| Permissions.IsAdminRejectingPut | api_yamdb/users/v1/permission.py:7-10 | PUT raises MethodNotAllowed for every caller, anonymous included; any other method is allowed exactly for authenticated admins, so staff, superusers and moderators without the admin role are denied |
| Permissions.IsAdminOrSuperuser | api_yamdb/users/v1/permissions.py:7-11 | access is granted exactly to authenticated callers who are admins or superusers; anonymous callers are always denied |
| Permissions.SuperuserVersionIgnoresMethod | api_yamdb/users/v1/permissions.py:7-11 | the decision is the same for every method, PUT included |
| Permissions.RejectingPutIsStrictest | api_yamdb/users/v1/permission.py:7-10 | what the PUT-rejecting IsAdmin allows, the other two classes allow; off PUT it agrees with the superuser version on every caller who is not a superuser |
| AccountSerializers.Lower | api_yamdb/users/v1/serializers.py:34 | lower-casing keeps the length and lower-cases each character |
| AccountSerializers.LowerIsMeIff | api_yamdb/users/v1/serializers.py:34-35 | a string lower-cases to "me" exactly when it is "me", "Me", "mE" or "ME" |
| AccountSerializers.ValidateUsername | api_yamdb/users/v1/serializers.py:31-37 | the four spellings of "me" are refused; every other value is returned unchanged, case kept |
| AccountSerializers.ValidateUsernameExamples | api_yamdb/users/v1/serializers.py:34-36 | "ME", "Me" and "mE" are refused; "me2", "meow" and "name" pass |
| AccountSerializers.ValidateTokenUsername | api_yamdb/users/v1/serializers.py:40-43 | the token serializer accepts exactly a non-empty username of at most 150 characters and returns it; the account lookup that follows is not part of this member |
| AccountSerializers.Persist | api_yamdb/users/models.py:17-30 | an account save succeeds exactly when the submitted fields are within the column bounds and the username and email are unused by other accounts; a blank username or email is refused as blank; it keeps the account table valid and writes the submitted fields |
| AccountSerializers.PersistKeepsDirectory | api_yamdb/users/models.py:17-27 | writing a checked account keeps the bounds and the uniqueness of usernames and emails |
| AccountSerializers.SaveUser | api_yamdb/users/v1/serializers.py:8-37 | an administrator's save succeeds exactly when the target exists, required fields are given, the role is a choice, the username is not "me", and bounds and uniqueness hold; the stored account has the submitted username, email, names and bio, the submitted role or else the default (create) or the old role (update); an update keeps the unsubmitted fields and the staff and superuser flags, a create leaves the names and bio blank and both flags off; other accounts are untouched and no account is added beyond the saved one |
| AccountSerializers.SaveMe | api_yamdb/users/v1/serializers.py:52-68 | a profile save writes the submitted username, email, names and bio, keeps the other fields, never changes the role, staff or superuser flag, keeps the account table valid and leaves other accounts untouched (also the behaviour of `UserMeSerializer`, api_yamdb/api/serializers.py:141-150) |
| AccountSerializers.SaveMeAcceptsReservedUsername | api_yamdb/users/v1/serializers.py:52-68 | as written, a profile save renames an account to "Me" |
| AccountSerializers.SaveMeValidated | api_yamdb/users/v1/serializers.py:31-37 | the profile save with the username check keeps every stored username clear of "me"; otherwise it accepts the same requests and writes the same table as `AccountSerializers.SaveMe`: the submitted fields, the role and both flags kept, other accounts untouched |
| Catalog.EmptyStore | api_yamdb/reviews/models.py:11-124 | the database with every table empty meets the store invariant, so `Catalog.Valid` can be met |
| Catalog.FindSlug | api_yamdb/reviews/models.py:11-13 | with unique slugs, finds the one row with the slug exactly when one exists |
| Catalog.AddNameSlug | api_yamdb/reviews/models.py:11-13 | an insert with a blank name or slug is refused as blank, one with a taken slug as taken; otherwise the row is added under a new key and slugs stay unique |
| Catalog.AddCategory | api_yamdb/reviews/models.py:19-24 | a category is added exactly when its name and slug are not blank and its slug is unused; the store stays valid and only the category table changes |
| Catalog.AddGenre | api_yamdb/reviews/models.py:30-35 | a genre is added exactly when its name and slug are not blank and its slug is unused; the store stays valid and only the genre table changes |
| Catalog.DeleteCategory | api_yamdb/reviews/models.py:54-56 | deleting a category by slug keeps every title and sets to null exactly the categories of the titles that had it; every other category keeps its key and values; 404 for an unknown slug |
| Catalog.DeleteGenre | api_yamdb/reviews/models.py:53 | deleting a genre by slug keeps every title and drops exactly that genre from their genre sets; every other genre keeps its key and values; 404 for an unknown slug |
| Catalog.AddTitle | api_yamdb/reviews/models.py:41-61 | a title is added exactly when its name is not blank and its category slug and every genre slug exist; the new title's category and genres are the ones those slugs name; the old titles stay and the new key is the only one added |
| Catalog.DeleteTitle | api_yamdb/reviews/models.py:75-77 | deleting a title removes exactly its reviews and the comments on them; all other rows are unchanged and the store stays valid |
| Catalog.DeleteReview | api_yamdb/reviews/models.py:115-119 | deleting a review removes exactly its comments; other reviews and comments are unchanged |
| Catalog.DeleteUser | api_yamdb/reviews/models.py:80-84 | deleting an account removes exactly its reviews, its comments and the comments on its reviews |
| Catalog.InsertReview | api_yamdb/reviews/models.py:97-103 | the database stores a review exactly when its title and author exist and the author has no review of that title; otherwise IntegrityError |
| Catalog.InsertComment | api_yamdb/reviews/models.py:113-124 | the database stores a comment exactly when its review and author exist |
| Catalog.UpdateReview | api_yamdb/reviews/models.py:73-92 | a save of text and score keeps the review's title and author and the store invariant |
| Catalog.UpdateComment | api_yamdb/reviews/models.py:113-124 | a save of text keeps the comment's review and author |
| Catalog.DeleteComment | api_yamdb/reviews/models.py:113-119 | deleting a comment removes only that comment |
| Catalog.CommentStr | api_yamdb/reviews/models.py:136-137 | a comment's string form is a prefix of its text, 50 characters long or the whole text if shorter |
| Api.TitleAccepts | api_yamdb/api/views.py:34 | titles accept exactly GET, POST, PATCH and DELETE |
| Api.CheckReviewFields | api_yamdb/reviews/models.py:85-92 | a score outside 1..10 is refused; text is required on create |
| Api.ValidateReview | api_yamdb/api/serializers.py:104-113 | 404 when the path's title is missing, whatever the method; on POST a second review by the requester is refused; on other methods that check is skipped; on success the data comes back unchanged |
| Api.PerformCreateReview | api_yamdb/api/views.py:78-87 | 404 for a missing title; a duplicate raises a ValidationError outside the serializer (status 500); otherwise the review is stored with the path's title and the requester as author |
| Api.CreateReview | api_yamdb/api/views.py:78-87 | a create succeeds exactly when the fields are valid, the title exists and the requester has no review of it; a duplicate gets 400, a missing title 404, every failure answers 400 or 404, and neither later guard ever fires; the stored review has the path's title, the requester as author and score 1 when none is given |
| Api.SecondReviewRefused | api_yamdb/api/serializers.py:108-112 | the first review by an author of a title succeeds and a second one is refused |
| Api.HandleReviews | api_yamdb/api/views.py:72-99 | PUT gets 405 and changes nothing; failures change nothing; listing returns every review; a create stores the review under a new key and changes no other table; an edit keeps title and author and is not blocked by the review itself; a delete cascades to the review's comments |
| Api.EditOwnReviewAllowed | api_yamdb/api/serializers.py:108 | an author's PATCH of their own review succeeds even though that review exists |
| Api.ParentReview | api_yamdb/api/views.py:48-49 | the review named by review_id, or 404 |
| Api.CommentsOf | api_yamdb/api/views.py:55-57 | the listed comments are exactly those of the review named by review_id |
| Api.CommentOf | api_yamdb/api/views.py:55-57 | a comment is found only under its own review |
| Api.HandleComments | api_yamdb/api/views.py:42-69 | PUT gets 405 and changes nothing; a created comment is attached to the review named by review_id and authored by the requester; a retrieve returns the stored comment; list, edit and delete act only on that review's comments |
| Api.CommentsIgnoreTitle | api_yamdb/api/views.py:48-57 | the title_id of a comment request's path does not affect its outcome |
| Api.HandleTitles | api_yamdb/api/views.py:25-34 | a method outside `http_method_names` gets 405 and changes nothing; a create adds the title `Catalog.AddTitle` builds under a new key, with the submitted name and year, and changes no other table; deleting a title cascades as `Catalog.DeleteTitle` states |
| Api.SaveAccount | api_yamdb/users/v1/serializers.py:8-37 | an administrator's account save applied to the database succeeds exactly when `AccountSerializers.SaveUser` does, keeps `Catalog.Valid`, loses no account key and changes only the account table, which becomes the table `AccountSerializers.SaveUser` writes |
| Api.SaveProfile | api_yamdb/users/v1/serializers.py:52-68 | the corrected profile save applied to the database keeps `Catalog.Valid` and the set of accounts, writes the table `AccountSerializers.SaveMeValidated` writes, keeps the caller's role, and keeps every stored username clear of "me" |

## Left out

- The signup and confirmation-code flow is not modelled, and neither is token issuance (users/serializers.py, users/views.py, users/v1/views.py). Sending mail is I/O. The token generator and the JWT library are library code. The v1 token view issues a token for any existing username without checking a code, and the model does not present it as an authentication exchange.
- A title's `rating` is not modelled. It is a database average over review scores whose value is not an integer.
- `validate_year` is not modelled. It lives in `reviews/validators.py`, which is not part of this model, and it depends on the current date.
- The name and slug lengths of categories, genres and titles are not modelled. Their bounds come from `reviews/constants.py`, which is not part of this model.
- Slug format validation is not modelled. Neither is email format validation, nor the object-level `Meta.validators` list of `UserSerializer`. Their effect depends on framework internals.
- The object-level permission of reviews and comments is not modelled, and neither is `AdminOrReadOnly` on titles. `api/views.py` imports both from `api/permission.py`, which does not define them.
- Api.HandleReviews: requires the requester to be a stored account. The permission classes the review and comment viewsets name are not defined in the source, so what an anonymous caller gets is not modelled.
- Api.HandleComments: requires the requester to be a stored account, for the same reason.
- Catalog.InsertReview: requires a score in 1..10. The database does not enforce that range. The model validators enforce it in the serializer before any insert.
- Routing, viewset mixin configuration, search, filtering, pagination, admin registration and migrations are not modelled.
- Catalog.AddTitle: covers the create of the write serializer only. A partial update of a title is not modelled. It reports one reason per refused request, a blank name before an unknown slug.
- Timestamps (`created`, `pub_date`) and the orderings built on them are not modelled. Listings return sets of keys.
- The display strings of categories, genres, titles and reviews are not modelled.
- The race between the duplicate check and the insert is not modelled. Operations are sequential, and the database constraint (`Catalog.InsertReview`) is the guard.
- AccountSerializers.Lower: lower-cases ASCII letters only. Python's `str.lower` also folds other Unicode letters.
- The framework's text-field handling is not modelled: whitespace trimming, and blank checks on review and comment text. Modelled are the required fields of reviews, comments, accounts and the token request, the blank checks on account usernames and emails, on category and genre names and slugs and on title names, and the account column bounds.
- Api.HandleTitles: a title create always carries every field (`Api.TitleInput`), so a missing name, year or category is not modelled; the same holds for the name and slug of `Catalog.AddCategory` and `Catalog.AddGenre`. The pairing of a routed action with its method is the router's and is not checked.
- Catalog.AddNameSlug: reports one reason per refused request, blank before taken; the framework collects the errors of every field.
- AccountSerializers.SaveUser: reports one reason per refused request. The framework collects the errors of every field.
- Account endpoint dispatch (`UserViewSet`, lookup by username) is not modelled. Its saves are `AccountSerializers.SaveUser` and `AccountSerializers.SaveMe`, and account deletion is `Catalog.DeleteUser`.

## Findings

| source | as written | input that shows it | evidently intended | confidence | as-written member | corrected member |
|---|---|---|---|---|---|---|
| api_yamdb/users/v1/serializers.py:52-68 | `MeSerializer` has no `validate_username`, so a profile update saves any username that passes the length and uniqueness checks | a PATCH of one's own profile with username "Me" | the rule of `UserSerializer.validate_username` (no username "me" in any case) also holds for profile updates | medium; not executed | AccountSerializers.SaveMeAcceptsReservedUsername | AccountSerializers.SaveMeValidated |

=== FILE: account_serializers.dfy ===
/**
  The account serializers: the username check that refuses "me" in any
  letter case, the username bound of the token request, and the two ways an
  account is saved: by an administrator, who may set the role, and by the
  account's owner through the profile endpoint, where the role is read-only.
 */
module AccountSerializers {
  import opened Http
  import opened Tables
  import opened Accounts

  /** The max_length of the token request's username field. */
  const TOKEN_USERNAME_MAX_LENGTH: nat := 150

  /** Lower-casing of one character, over ASCII. */
  function LowerChar(c: char): char {
    if 'A' <= c <= 'Z' then (c as int + ('a' as int - 'A' as int)) as char else c
  }

  /** Lower-casing of a string, character by character. */
  function Lower(s: string): (r: string)
    ensures |r| == |s|
    ensures forall i :: 0 <= i < |s| ==> r[i] == LowerChar(s[i])
  {
    if s == [] then [] else [LowerChar(s[0])] + Lower(s[1..])
  }

  /** The four spellings of "me": both letters, each in either case. */
  predicate SpellsMe(s: string) {
    |s| == 2 && (s[0] == 'm' || s[0] == 'M') && (s[1] == 'e' || s[1] == 'E')
  }

  /** A string lower-cases to "me" exactly when it is one of the four spellings. */
  lemma LowerIsMeIff(s: string)
    ensures Lower(s) == "me" <==> SpellsMe(s)
  {
  }

  /** `validate_username`: "me" is refused whatever its case; anything else passes unchanged. */
  function ValidateUsername(value: string): (r: Result<string>)
    ensures r.Fail? <==> SpellsMe(value)
    ensures r.Fail? ==> r.failure == Invalid(ReservedUsername)
    ensures r.Ok? ==> r.value == value
  {
    LowerIsMeIff(value);
    if Lower(value) == "me" then Fail(Invalid(ReservedUsername)) else Ok(value)
  }

  /** Only the whole name is compared: upper-case variants fail, longer names pass. */
  lemma ValidateUsernameExamples()
    ensures ValidateUsername("me").Fail? && ValidateUsername("ME").Fail?
    ensures ValidateUsername("Me").Fail? && ValidateUsername("mE").Fail?
    ensures ValidateUsername("me2") == Ok("me2")
    ensures ValidateUsername("meow") == Ok("meow")
    ensures ValidateUsername("name") == Ok("name")
    ensures ValidateUsername("Mary") == Ok("Mary")
  {
  }

  /** The token request: a username is required and bounded. */
  function ValidateTokenUsername(username: Option<string>): (r: Result<string>)
    ensures r.Ok? <==> username.Some? && 0 < |username.value| <= TOKEN_USERNAME_MAX_LENGTH
    ensures r.Ok? ==> r.value == username.value
    ensures username.None? ==> r == Fail(Invalid(FieldRequired))
  {
    match username
    case None => Fail(Invalid(FieldRequired))
    case Some(name) =>
      if |name| == 0 then Fail(Invalid(FieldBlank))
      else if |name| > TOKEN_USERNAME_MAX_LENGTH then Fail(Invalid(TooLong))
      else Ok(name)
  }

  /** The fields a request submits for an account; absent fields are left alone. */
  datatype UserData = UserData(
    username: Option<string>,
    email: Option<string>,
    firstName: Option<string>,
    lastName: Option<string>,
    bio: Option<string>,
    role: Option<string>)

  /** The submitted text fields respect the column bounds. */
  predicate SubmittedWithinBounds(data: UserData) {
    && (data.username.Some? ==> 0 < |data.username.value| <= USERNAME_MAX_LENGTH)
    && (data.email.Some? ==> 0 < |data.email.value| <= EMAIL_MAX_LENGTH)
    && (data.firstName.Some? ==> |data.firstName.value| <= NAME_MAX_LENGTH)
    && (data.lastName.Some? ==> |data.lastName.value| <= NAME_MAX_LENGTH)
  }

  /** The submitted username and email are not used by another account. */
  predicate SubmittedUnique(m: map<nat, User>, target: Option<nat>, data: UserData) {
    && (data.username.Some? ==> !UsernameInUse(m, data.username.value, target))
    && (data.email.Some? ==> !EmailInUse(m, data.email.value, target))
  }

  /** The account a save starts from: the stored one, or a new one. */
  function Base(d: Table<User>, target: Option<nat>, data: UserData): User
    requires target.Some? ==> target.value in d.rows
    requires target.None? ==> data.username.Some? && data.email.Some?
  {
    if target.Some? then d.rows[target.value] else NewUser(data.username.value, data.email.value)
  }

  /** The submitted fields written over an account, with the role given. */
  function Merge(base: User, data: UserData, role: Role): User {
    User(
      data.username.GetOr(base.username),
      data.email.GetOr(base.email),
      data.firstName.GetOr(base.firstName),
      data.lastName.GetOr(base.lastName),
      data.bio.GetOr(base.bio),
      role,
      base.isStaff,
      base.isSuperuser)
  }

  /**
    The part both serializers share: the field bounds, the uniqueness checks
    on username and email, and the write.
   */
  function Persist(d: Table<User>, target: Option<nat>, data: UserData, role: Role): (r: Result<(Table<User>, nat)>)
    requires DirectoryValid(d)
    requires target.Some? ==> target.value in d.rows
    requires target.None? ==> data.username.Some? && data.email.Some?
    ensures r.Ok? <==> SubmittedWithinBounds(data) && SubmittedUnique(d.rows, target, data)
    ensures data.username == Some("") || data.email == Some("") ==> r == Fail(Invalid(FieldBlank))
    ensures r.Ok? ==> DirectoryValid(r.value.0)
    ensures r.Ok? ==> r.value.0.rows == d.rows[r.value.1 := Merge(Base(d, target, data), data, role)]
    ensures r.Ok? && target.Some? ==> r.value.1 == target.value
    ensures r.Ok? && target.None? ==> r.value.1 !in d.rows
  {
    if !SubmittedWithinBounds(data) then
      Fail(Invalid(if data.username == Some("") || data.email == Some("") then FieldBlank else TooLong))
    else if data.username.Some? && UsernameInUse(d.rows, data.username.value, target) then
      Fail(Invalid(UsernameTaken))
    else if data.email.Some? && EmailInUse(d.rows, data.email.value, target) then
      Fail(Invalid(EmailTaken))
    else
      var base := Base(d, target, data);
      var u := Merge(base, data, role);
      var key := if target.Some? then target.value else d.next;
      PersistKeepsDirectory(d, key, base, data, role, target);
      if target.Some? then Ok((Set(d, key, u), key))
      else Ok(Insert(d, u))
  }

  /** The write of a checked account keeps the account table's invariant. */
  lemma PersistKeepsDirectory(d: Table<User>, key: nat, base: User, data: UserData, role: Role, target: Option<nat>)
    requires DirectoryValid(d)
    requires target.Some? ==> key == target.value && key in d.rows && base == d.rows[key]
    requires target.None? ==> key == d.next && data.username.Some? && data.email.Some?
    requires target.None? ==> base == NewUser(data.username.value, data.email.value)
    requires SubmittedWithinBounds(data) && SubmittedUnique(d.rows, target, data)
    ensures DirectoryValid(Table(d.rows[key := Merge(base, data, role)], if target.Some? then d.next else d.next + 1))
  {
  }

  /**
    UserSerializer as the administrators' user endpoint drives it: a create
    when `target` is None, a partial update of the stored account otherwise.
    The username passes `validate_username`; a submitted role must be one of
    the choices and is stored.
   */
  function SaveUser(d: Table<User>, target: Option<nat>, data: UserData): (r: Result<(Table<User>, nat)>)
    requires DirectoryValid(d)
    ensures target.Some? && target.value !in d.rows ==> r == Fail(NotFound)
    ensures r.Ok? <==>
      && (target.Some? ==> target.value in d.rows)
      && (target.None? ==> data.username.Some? && data.email.Some?)
      && (data.role.Some? ==> ParseRole(data.role.value).Some?)
      && (data.username.Some? ==> !SpellsMe(data.username.value))
      && SubmittedWithinBounds(data)
      && SubmittedUnique(d.rows, target, data)
    ensures r.Ok? ==> DirectoryValid(r.value.0) && r.value.1 in r.value.0.rows
    ensures r.Ok? ==> var u := r.value.0.rows[r.value.1];
      && (data.username.Some? ==> u.username == data.username.value)
      && (data.email.Some? ==> u.email == data.email.value)
      && (data.role.Some? ==> RoleValue(u.role) == data.role.value)
      && (data.role.None? && target.None? ==> u.role == UserRole)
      && (data.role.None? && target.Some? ==> u.role == d.rows[target.value].role)
    ensures r.Ok? && target.Some? ==> var u, prev := r.value.0.rows[r.value.1], d.rows[target.value];
      && u.firstName == data.firstName.GetOr(prev.firstName)
      && u.lastName == data.lastName.GetOr(prev.lastName)
      && u.bio == data.bio.GetOr(prev.bio)
      && u.isStaff == prev.isStaff && u.isSuperuser == prev.isSuperuser
    ensures r.Ok? && target.None? ==> var u := r.value.0.rows[r.value.1];
      && u.firstName == data.firstName.GetOr("")
      && u.lastName == data.lastName.GetOr("")
      && u.bio == data.bio.GetOr("")
      && !u.isStaff && !u.isSuperuser
    ensures r.Ok? ==> forall k :: k in d.rows && k != r.value.1 ==> k in r.value.0.rows && r.value.0.rows[k] == d.rows[k]
    ensures r.Ok? ==> r.value.0.rows.Keys == d.rows.Keys + {r.value.1}
  {
    if target.Some? && target.value !in d.rows then Fail(NotFound)
    else if target.None? && (data.username.None? || data.email.None?) then Fail(Invalid(FieldRequired))
    else
      var role :- match data.role
        case None => Ok(if target.Some? then d.rows[target.value].role else DefaultRole())
        case Some(v) => if ParseRole(v).Some? then Ok(ParseRole(v).value) else Fail(Invalid(NotAChoice));
      var _ :- match data.username
        case None => Ok("")
        case Some(name) => ValidateUsername(name);
      Persist(d, target, data, role)
  }

  /**
    MeSerializer as the profile endpoint drives it, as written: a partial
    update of the caller's own account in which the role is read-only. The
    username does not pass `validate_username`.
   */
  function SaveMe(d: Table<User>, self: nat, data: UserData): (r: Result<Table<User>>)
    requires DirectoryValid(d) && self in d.rows
    ensures r.Ok? <==> SubmittedWithinBounds(data) && SubmittedUnique(d.rows, Some(self), data)
    ensures r.Ok? ==> DirectoryValid(r.value) && r.value.rows.Keys == d.rows.Keys
    ensures r.Ok? ==> r.value.rows[self].role == d.rows[self].role
    ensures r.Ok? ==> r.value.rows[self].isStaff == d.rows[self].isStaff
    ensures r.Ok? ==> r.value.rows[self].isSuperuser == d.rows[self].isSuperuser
    ensures r.Ok? ==> var u, prev := r.value.rows[self], d.rows[self];
      && u.username == data.username.GetOr(prev.username)
      && u.email == data.email.GetOr(prev.email)
      && u.firstName == data.firstName.GetOr(prev.firstName)
      && u.lastName == data.lastName.GetOr(prev.lastName)
      && u.bio == data.bio.GetOr(prev.bio)
    ensures r.Ok? ==> forall k :: k in d.rows && k != self ==> k in r.value.rows && r.value.rows[k] == d.rows[k]
  {
    var (d', _) :- Persist(d, Some(self), data, d.rows[self].role);
    Ok(d')
  }

  /** No stored username is a spelling of "me". */
  predicate NoReservedUsername(d: Table<User>) {
    forall k :: k in d.rows ==> !SpellsMe(d.rows[k].username)
  }

  /** As written, the profile endpoint lets an account rename itself "Me". */
  lemma SaveMeAcceptsReservedUsername()
    ensures var d := Table(map[0 := NewUser("alice", "alice@example.com")], 1);
            && DirectoryValid(d) && NoReservedUsername(d)
            && var r := SaveMe(d, 0, UserData(Some("Me"), None, None, None, None, None));
            && r.Ok? && !NoReservedUsername(r.value)
  {
  }

  /**
    The profile save with the username check the administrators' serializer
    applies: it keeps every stored username clear of "me".
   */
  function SaveMeValidated(d: Table<User>, self: nat, data: UserData): (r: Result<Table<User>>)
    requires DirectoryValid(d) && self in d.rows
    ensures r.Ok? <==>
      && (data.username.Some? ==> !SpellsMe(data.username.value))
      && SubmittedWithinBounds(data)
      && SubmittedUnique(d.rows, Some(self), data)
    ensures r.Ok? ==> DirectoryValid(r.value)
    ensures r.Ok? ==> r.value.rows.Keys == d.rows.Keys && r.value.rows[self].role == d.rows[self].role
    ensures r.Ok? && NoReservedUsername(d) ==> NoReservedUsername(r.value)
    ensures r.Ok? ==> r == SaveMe(d, self, data)
    ensures r.Ok? ==> var u, prev := r.value.rows[self], d.rows[self];
      && u.username == data.username.GetOr(prev.username)
      && u.email == data.email.GetOr(prev.email)
      && u.isStaff == prev.isStaff && u.isSuperuser == prev.isSuperuser
    ensures r.Ok? ==> forall k :: k in d.rows && k != self ==> r.value.rows[k] == d.rows[k]
  {
    var _ :- match data.username
      case None => Ok("")
      case Some(name) => ValidateUsername(name);
    SaveMe(d, self, data)
  }
}

=== FILE: accounts.dfy ===
/**
  The user account model: the three roles and their stored values, the role
  predicates, the default a new account gets, the field bounds, and the
  uniqueness of usernames and emails across the account table.
 */
module Accounts {
  import opened Http
  import opened Tables

  const USER: string := "user"
  const ADMIN: string := "admin"
  const MODERATOR: string := "moderator"

  const USERNAME_MAX_LENGTH: nat := 150
  const EMAIL_MAX_LENGTH: nat := 254
  const NAME_MAX_LENGTH: nat := 150
  const ROLE_MAX_LENGTH: nat := 30

  /** The choices of the role field. */
  datatype Role = UserRole | AdminRole | ModeratorRole

  /** The value stored in the role column for each choice. */
  function RoleValue(r: Role): (v: string)
    ensures |v| <= ROLE_MAX_LENGTH
    ensures v in {USER, ADMIN, MODERATOR}
  {
    match r
    case UserRole => USER
    case AdminRole => ADMIN
    case ModeratorRole => MODERATOR
  }

  /** Choice validation of a submitted role value. */
  function ParseRole(v: string): (r: Option<Role>)
    ensures r.Some? <==> v in {USER, ADMIN, MODERATOR}
    ensures r.Some? ==> RoleValue(r.value) == v
  {
    if v == USER then Some(UserRole)
    else if v == ADMIN then Some(AdminRole)
    else if v == MODERATOR then Some(ModeratorRole)
    else None
  }

  /** Stored values and choices are in one-to-one correspondence. */
  lemma RoleValueRoundTrip(r: Role, v: string)
    ensures ParseRole(RoleValue(r)) == Some(r)
    ensures ParseRole(v).Some? ==> RoleValue(ParseRole(v).value) == v
  {
  }

  /** The role a new account gets when none is given. */
  function DefaultRole(): (r: Role)
    ensures RoleValue(r) == USER
  {
    ParseRole("user").value
  }

  /** An account; `isStaff` and `isSuperuser` are the framework's own flags. */
  datatype User = User(
    username: string,
    email: string,
    firstName: string,
    lastName: string,
    bio: string,
    role: Role,
    isStaff: bool,
    isSuperuser: bool)

  function IsUser(u: User): (b: bool)
    ensures b <==> u.role == UserRole
  {
    RoleValue(u.role) == USER
  }

  function IsAdmin(u: User): (b: bool)
    ensures b <==> u.role == AdminRole
  {
    RoleValue(u.role) == ADMIN
  }

  function IsModerator(u: User): (b: bool)
    ensures b <==> u.role == ModeratorRole
  {
    RoleValue(u.role) == MODERATOR
  }

  /** Every account satisfies exactly one of the three role predicates. */
  lemma ExactlyOneRole(u: User)
    ensures IsUser(u) || IsAdmin(u) || IsModerator(u)
    ensures !(IsUser(u) && IsAdmin(u))
    ensures !(IsUser(u) && IsModerator(u))
    ensures !(IsAdmin(u) && IsModerator(u))
  {
  }

  /** A fresh account: default role, blank profile, no framework privileges. */
  function NewUser(username: string, email: string): (u: User)
    ensures IsUser(u) && !IsAdmin(u) && !IsModerator(u)
    ensures u.username == username && u.email == email
    ensures !u.isStaff && !u.isSuperuser
  {
    User(username, email, "", "", "", DefaultRole(), false, false)
  }

  /** The column bounds: username and email are required, the names bounded. */
  predicate WithinBounds(u: User) {
    && 0 < |u.username| <= USERNAME_MAX_LENGTH
    && 0 < |u.email| <= EMAIL_MAX_LENGTH
    && |u.firstName| <= NAME_MAX_LENGTH
    && |u.lastName| <= NAME_MAX_LENGTH
  }

  /** No two accounts share a username, and no two share an email. */
  predicate UniqueAccounts(m: map<nat, User>) {
    forall a, b :: a in m && b in m && a != b ==>
      m[a].username != m[b].username && m[a].email != m[b].email
  }

  /** The state of the account table the database keeps. */
  predicate DirectoryValid(d: Table<User>) {
    && KeysBelowNext(d)
    && (forall k :: k in d.rows ==> WithinBounds(d.rows[k]))
    && UniqueAccounts(d.rows)
  }

  /** Some account other than `self` already uses the username `name`. */
  predicate UsernameInUse(m: map<nat, User>, name: string, self: Option<nat>) {
    exists k :: k in m && Some(k) != self && m[k].username == name
  }

  /** Some account other than `self` already uses the email `email`. */
  predicate EmailInUse(m: map<nat, User>, email: string, self: Option<nat>) {
    exists k :: k in m && Some(k) != self && m[k].email == email
  }

  /** Storing an account whose username and email no other account uses keeps both unique. */
  lemma StoreKeepsUnique(m: map<nat, User>, k: nat, u: User)
    requires UniqueAccounts(m)
    requires !UsernameInUse(m, u.username, Some(k))
    requires !EmailInUse(m, u.email, Some(k))
    ensures UniqueAccounts(m[k := u])
  {
  }
}

=== FILE: api.dfy ===
/**
  The request handling of the title, review and comment endpoints: which
  methods a title accepts, the review checks that run before the insert (the
  serializer's on POST only, then the view's), the 405 for PUT on reviews and
  comments, and which review a comment request is about.
 */
module Api {
  import opened Http
  import opened Tables
  import opened Accounts
  import opened Catalog
  import AccountSerializers

  /** The methods TitleViewSet lists in `http_method_names`. */
  const TITLE_METHOD_NAMES: seq<string> := ["get", "post", "patch", "delete"]

  /** The dispatch check of the title endpoints; any other method gets 405. */
  function TitleAccepts(m: Method): (accepted: bool)
    ensures accepted <==> m == Get || m == Post || m == Patch || m == Delete
    ensures m == Put || m == Head || m == Options || m == Trace ==> !accepted
  {
    MethodName(m) in TITLE_METHOD_NAMES
  }

  /** What a successful request returns. */
  datatype Reply =
    | Created(key: nat)
    | Listed(keys: set<nat>)
    | ShowTitle(title: Title)
    | ShowReview(review: Review)
    | ShowComment(comment: Comment)
    | Updated
    | Deleted

  /** The fields a review request submits; a missing score means the default. */
  datatype ReviewData = ReviewData(text: Option<string>, score: Option<int>)

  /** The submitted data has passed field validation for a create. */
  predicate FieldsChecked(data: ReviewData) {
    data.text.Some? && (data.score.Some? ==> ScoreInRange(data.score.value))
  }

  /** Field validation: text is required unless the update is partial; a score must be within 1..10. */
  function CheckReviewFields(data: ReviewData, partial: bool): (r: Result<ReviewData>)
    ensures r.Ok? <==> (partial || data.text.Some?) && (data.score.Some? ==> ScoreInRange(data.score.value))
    ensures !partial && r.Ok? ==> FieldsChecked(r.value)
    ensures r.Ok? ==> r.value == data
    ensures r.Fail? ==> r.failure.Invalid?
  {
    if !partial && data.text.None? then Fail(Invalid(FieldRequired))
    else if data.score.Some? && !ScoreInRange(data.score.value) then Fail(Invalid(ScoreOutOfRange))
    else Ok(data)
  }

  /**
    ReviewSerializer.validate: the title of the path must exist, whatever the
    method; on POST only, the requester must not have reviewed it already.
   */
  function ValidateReview(s: Store, m: Method, titleId: nat, requester: nat, data: ReviewData): (r: Result<ReviewData>)
    ensures titleId !in s.titles.rows ==> r == Fail(NotFound)
    ensures m == Post ==> (r.Ok? <==> titleId in s.titles.rows && !HasReview(s, requester, titleId))
    ensures m != Post ==> (r.Ok? <==> titleId in s.titles.rows)
    ensures r.Fail? && titleId in s.titles.rows ==> r.failure == Invalid(DuplicateReview)
    ensures r.Ok? ==> r.value == data
  {
    if titleId !in s.titles.rows then Fail(NotFound)
    else if m == Post && HasReview(s, requester, titleId) then Fail(Invalid(DuplicateReview))
    else Ok(data)
  }

  /**
    ReviewViewSet.perform_create: the title of the path must exist, and the
    requester must not have reviewed it; the review is saved with that title
    and the requester as author. Its ValidationError is raised outside the
    serializer, so the framework answers it with 500.
   */
  function PerformCreateReview(s: Store, titleId: nat, requester: nat, data: ReviewData): (r: Result<(Store, nat)>)
    requires Valid(s) && requester in s.users.rows && FieldsChecked(data)
    ensures titleId !in s.titles.rows ==> r == Fail(NotFound)
    ensures titleId in s.titles.rows && HasReview(s, requester, titleId) ==> r == Fail(Unhandled(DuplicateReview))
    ensures titleId in s.titles.rows && HasReview(s, requester, titleId) ==> StatusCode(r.failure) == 500
    ensures r.Ok? <==> titleId in s.titles.rows && !HasReview(s, requester, titleId)
    ensures r.Ok? ==> Valid(r.value.0) && r.value.1 !in s.reviews.rows
    ensures r.Ok? ==> r.value.0.reviews.rows
                      == s.reviews.rows[r.value.1 := Review(data.text.value, titleId, requester, data.score.GetOr(SCORE_DEFAULT))]
    ensures r.Ok? ==> r.value.0 == s.(reviews := r.value.0.reviews)
  {
    if titleId !in s.titles.rows then Fail(NotFound)
    else if HasReview(s, requester, titleId) then Fail(Unhandled(DuplicateReview))
    else InsertReview(s, data.text.value, titleId, requester, data.score.GetOr(SCORE_DEFAULT))
  }

  /**
    POST on the reviews of a title: field validation, then `validate`, then
    `perform_create`. The serializer's check makes the two later guards (the
    view's and the database constraint) unreachable.
   */
  function CreateReview(s: Store, titleId: nat, requester: nat, data: ReviewData): (r: Result<(Store, nat)>)
    requires Valid(s) && requester in s.users.rows
    ensures r.Ok? <==> FieldsChecked(data) && titleId in s.titles.rows && !HasReview(s, requester, titleId)
    ensures FieldsChecked(data) && titleId !in s.titles.rows ==> r == Fail(NotFound)
    ensures FieldsChecked(data) && HasReview(s, requester, titleId) ==> r == Fail(Invalid(DuplicateReview))
    ensures r.Fail? ==> r.failure.Invalid? || r.failure == NotFound
    ensures r.Fail? ==> StatusCode(r.failure) == 400 || StatusCode(r.failure) == 404
    ensures r.Ok? ==> Valid(r.value.0) && r.value.1 !in s.reviews.rows
    ensures r.Ok? ==> r.value.0.reviews.rows
                      == s.reviews.rows[r.value.1 := Review(data.text.value, titleId, requester, data.score.GetOr(SCORE_DEFAULT))]
    ensures r.Ok? ==> r.value.0 == s.(reviews := r.value.0.reviews)
  {
    var fields :- CheckReviewFields(data, false);
    var checked :- ValidateReview(s, Post, titleId, requester, fields);
    PerformCreateReview(s, titleId, requester, checked)
  }

  /** A second review by the same author of the same title is refused, and the first stands. */
  lemma SecondReviewRefused(s: Store, titleId: nat, requester: nat, first: ReviewData, second: ReviewData)
    requires Valid(s) && requester in s.users.rows
    requires FieldsChecked(first) && FieldsChecked(second)
    requires titleId in s.titles.rows && !HasReview(s, requester, titleId)
    ensures CreateReview(s, titleId, requester, first).Ok?
    ensures var s' := CreateReview(s, titleId, requester, first).value.0;
            requester in s'.users.rows &&
            CreateReview(s', titleId, requester, second) == Fail(Invalid(DuplicateReview))
  {
    var (s', k) := CreateReview(s, titleId, requester, first).value;
    assert s'.reviews.rows[k].author == requester && s'.reviews.rows[k].title == titleId;
    assert HasReview(s', requester, titleId);
  }

  /** The requests the review endpoints route to their viewset. */
  datatype ReviewCall =
    | ReviewList
    | ReviewCreate(data: ReviewData)
    | ReviewRetrieve(id: nat)
    | ReviewPut(id: nat, data: ReviewData)
    | ReviewPatch(id: nat, data: ReviewData)
    | ReviewDestroy(id: nat)

  /**
    ReviewViewSet. Its queryset is every review: listing, fetching, editing
    and deleting do not look at the title of the path, except that an edit
    runs `validate`, which needs that title to exist. PUT gets 405.
   */
  function HandleReviews(s: Store, titleId: nat, requester: nat, call: ReviewCall): (out: (Result<Reply>, Store))
    requires Valid(s) && requester in s.users.rows
    ensures Valid(out.1)
    ensures out.0.Fail? ==> out.1 == s
    ensures call.ReviewPut? ==> out == (Fail(MethodNotAllowed), s)
    ensures call.ReviewList? ==> out == (Ok(Listed(s.reviews.rows.Keys)), s)
    ensures call.ReviewRetrieve? ==>
      && out.1 == s
      && (out.0.Ok? <==> call.id in s.reviews.rows)
      && (out.0.Ok? ==> out.0.value == ShowReview(s.reviews.rows[call.id]))
    ensures call.ReviewCreate? ==>
      && (out.0.Ok? <==> FieldsChecked(call.data) && titleId in s.titles.rows && !HasReview(s, requester, titleId))
      && (out.0.Ok? ==>
            && out.0.value.Created? && out.0.value.key !in s.reviews.rows
            && out.1.reviews.rows == s.reviews.rows[out.0.value.key :=
                 Review(call.data.text.value, titleId, requester, call.data.score.GetOr(SCORE_DEFAULT))]
            && out.1 == s.(reviews := out.1.reviews))
    ensures call.ReviewPatch? ==>
      && (out.0.Ok? <==>
            && call.id in s.reviews.rows
            && (call.data.score.Some? ==> ScoreInRange(call.data.score.value))
            && titleId in s.titles.rows)
      && (out.0.Ok? ==>
            var before := s.reviews.rows[call.id];
            && out.1 == s.(reviews := out.1.reviews)
            && out.1.reviews.rows == s.reviews.rows[call.id :=
                 before.(text := call.data.text.GetOr(before.text), score := call.data.score.GetOr(before.score))])
    ensures call.ReviewDestroy? ==>
      && (out.0.Ok? <==> call.id in s.reviews.rows)
      && (out.0.Ok? ==> out.1 == DeleteReview(s, call.id))
  {
    match call
    case ReviewList => (Ok(Listed(s.reviews.rows.Keys)), s)
    case ReviewCreate(data) =>
      (match CreateReview(s, titleId, requester, data)
       case Ok((s', k)) => (Ok(Created(k)), s')
       case Fail(f) => (Fail(f), s))
    case ReviewRetrieve(id) =>
      if id !in s.reviews.rows then (Fail(NotFound), s) else (Ok(ShowReview(s.reviews.rows[id])), s)
    case ReviewPut(_, _) => (Fail(MethodNotAllowed), s)
    case ReviewPatch(id, data) =>
      if id !in s.reviews.rows then (Fail(NotFound), s)
      else
        (match CheckReviewFields(data, true)
         case Fail(f) => (Fail(f), s)
         case Ok(fields) =>
           match ValidateReview(s, Patch, titleId, requester, fields)
           case Fail(f) => (Fail(f), s)
           case Ok(checked) =>
             var before := s.reviews.rows[id];
             (Ok(Updated), UpdateReview(s, id, checked.text.GetOr(before.text), checked.score.GetOr(before.score))))
    case ReviewDestroy(id) =>
      if id !in s.reviews.rows then (Fail(NotFound), s) else (Ok(Deleted), DeleteReview(s, id))
  }

  /** Editing one's own review is not blocked by that review existing. */
  lemma EditOwnReviewAllowed(s: Store, titleId: nat, id: nat, text: string)
    requires Valid(s) && id in s.reviews.rows && s.reviews.rows[id].title == titleId
    ensures var author := s.reviews.rows[id].author;
            && HasReview(s, author, titleId)
            && HandleReviews(s, titleId, author, ReviewPatch(id, ReviewData(Some(text), None))).0 == Ok(Updated)
  {
    var author := s.reviews.rows[id].author;
    assert HasReview(s, author, titleId);
  }

  /** The requests the comment endpoints route to their viewset. */
  datatype CommentCall =
    | CommentList
    | CommentCreate(text: Option<string>)
    | CommentRetrieve(id: nat)
    | CommentPut(id: nat, text: Option<string>)
    | CommentPatch(id: nat, text: Option<string>)
    | CommentDestroy(id: nat)

  /** `get_comment`: the review named by `review_id`, or 404. */
  function ParentReview(s: Store, reviewId: nat): (r: Result<Review>)
    ensures r.Ok? <==> reviewId in s.reviews.rows
    ensures r.Ok? ==> r.value == s.reviews.rows[reviewId]
    ensures r.Fail? ==> r.failure == NotFound
  {
    if reviewId in s.reviews.rows then Ok(s.reviews.rows[reviewId]) else Fail(NotFound)
  }

  /** `get_queryset`: the comments of the review named by `review_id`. */
  function CommentsOf(s: Store, reviewId: nat): (r: Result<set<nat>>)
    ensures r.Ok? <==> reviewId in s.reviews.rows
    ensures r.Fail? ==> r.failure == NotFound
    ensures r.Ok? ==> forall c :: c in r.value <==> c in s.comments.rows && s.comments.rows[c].review == reviewId
  {
    var _ :- ParentReview(s, reviewId);
    Ok(set c | c in s.comments.rows && s.comments.rows[c].review == reviewId)
  }

  /** `get_object`: a comment of the review named by `review_id`, or 404. */
  function CommentOf(s: Store, reviewId: nat, id: nat): (r: Result<Comment>)
    ensures r.Ok? <==> reviewId in s.reviews.rows && id in s.comments.rows && s.comments.rows[id].review == reviewId
    ensures r.Ok? ==> r.value == s.comments.rows[id]
    ensures r.Fail? ==> r.failure == NotFound
  {
    var keys :- CommentsOf(s, reviewId);
    if id in keys then Ok(s.comments.rows[id]) else Fail(NotFound)
  }

  /**
    CommentViewSet. Every action is about the review named by `review_id`;
    the title of the path is not looked at. PUT gets 405.
   */
  function HandleComments(s: Store, titleId: nat, reviewId: nat, requester: nat, call: CommentCall): (out: (Result<Reply>, Store))
    requires Valid(s) && requester in s.users.rows
    ensures Valid(out.1)
    ensures out.0.Fail? ==> out.1 == s
    ensures call.CommentPut? ==> out == (Fail(MethodNotAllowed), s)
    ensures call.CommentList? ==>
      && out.1 == s
      && (out.0.Ok? <==> reviewId in s.reviews.rows)
      && (out.0.Ok? ==>
            && out.0.value.Listed?
            && forall c :: c in out.0.value.keys <==> c in s.comments.rows && s.comments.rows[c].review == reviewId)
    ensures call.CommentRetrieve? ==>
      && out.1 == s
      && (out.0.Ok? <==> reviewId in s.reviews.rows && call.id in s.comments.rows && s.comments.rows[call.id].review == reviewId)
      && (out.0.Ok? ==> out.0.value == ShowComment(s.comments.rows[call.id]))
    ensures call.CommentCreate? ==>
      && (out.0.Ok? <==> call.text.Some? && reviewId in s.reviews.rows)
      && (out.0.Ok? ==>
            && out.0.value.Created? && out.0.value.key !in s.comments.rows
            && out.1 == s.(comments := out.1.comments)
            && out.1.comments.rows == s.comments.rows[out.0.value.key := Comment(call.text.value, reviewId, requester)])
    ensures call.CommentPatch? ==>
      && (out.0.Ok? <==> reviewId in s.reviews.rows && call.id in s.comments.rows && s.comments.rows[call.id].review == reviewId)
      && (out.0.Ok? ==>
            var before := s.comments.rows[call.id];
            && out.1 == s.(comments := out.1.comments)
            && out.1.comments.rows == s.comments.rows[call.id := before.(text := call.text.GetOr(before.text))])
    ensures call.CommentDestroy? ==>
      && (out.0.Ok? <==> reviewId in s.reviews.rows && call.id in s.comments.rows && s.comments.rows[call.id].review == reviewId)
      && (out.0.Ok? ==> out.1 == DeleteComment(s, call.id))
  {
    match call
    case CommentList =>
      (match CommentsOf(s, reviewId)
       case Ok(keys) => (Ok(Listed(keys)), s)
       case Fail(f) => (Fail(f), s))
    case CommentCreate(text) =>
      if text.None? then (Fail(Invalid(FieldRequired)), s)
      else
        (match ParentReview(s, reviewId)
         case Fail(f) => (Fail(f), s)
         case Ok(_) =>
           match InsertComment(s, text.value, reviewId, requester)
           case Ok((s', k)) => (Ok(Created(k)), s')
           case Fail(f) => (Fail(f), s))
    case CommentRetrieve(id) =>
      (match CommentOf(s, reviewId, id)
       case Ok(c) => (Ok(ShowComment(c)), s)
       case Fail(f) => (Fail(f), s))
    case CommentPut(_, _) => (Fail(MethodNotAllowed), s)
    case CommentPatch(id, text) =>
      (match CommentOf(s, reviewId, id)
       case Fail(f) => (Fail(f), s)
       case Ok(c) => (Ok(Updated), UpdateComment(s, id, text.GetOr(c.text))))
    case CommentDestroy(id) =>
      (match CommentOf(s, reviewId, id)
       case Fail(f) => (Fail(f), s)
       case Ok(_) => (Ok(Deleted), DeleteComment(s, id)))
  }

  /** The title of a comment request's path changes nothing about its outcome. */
  lemma CommentsIgnoreTitle(s: Store, titleId: nat, otherTitleId: nat, reviewId: nat, requester: nat, call: CommentCall)
    requires Valid(s) && requester in s.users.rows
    ensures HandleComments(s, titleId, reviewId, requester, call) == HandleComments(s, otherTitleId, reviewId, requester, call)
  {
  }

  /** What a title create submits: category and genres by slug. */
  datatype TitleInput = TitleInput(name: string, year: int, description: string, genres: set<string>, category: string)

  /** The requests the title endpoints route to their viewset. */
  datatype TitleCall =
    | TitleList
    | TitleCreate(input: TitleInput)
    | TitleRetrieve(id: nat)
    | TitleDestroy(id: nat)

  /**
    TitleViewSet: the request method `m` is checked against
    `http_method_names` before the routed action runs. The router pairs each
    action with its method: a list or a retrieve comes with GET, a create
    with POST, a destroy with DELETE. Callers pass such a pair; the function
    does not check the pairing, only the method list.
   */
  function HandleTitles(s: Store, m: Method, call: TitleCall): (out: (Result<Reply>, Store))
    requires Valid(s)
    ensures Valid(out.1)
    ensures out.0.Fail? ==> out.1 == s
    ensures !TitleAccepts(m) ==> out == (Fail(MethodNotAllowed), s)
    ensures !TitleAccepts(m) ==> StatusCode(out.0.failure) == 405
    ensures TitleAccepts(m) && call.TitleList? ==> out == (Ok(Listed(s.titles.rows.Keys)), s)
    ensures TitleAccepts(m) && call.TitleRetrieve? ==>
      && out.1 == s
      && (out.0.Ok? <==> call.id in s.titles.rows)
      && (out.0.Ok? ==> out.0.value == ShowTitle(s.titles.rows[call.id]))
    ensures TitleAccepts(m) && call.TitleCreate? ==>
      var added := AddTitle(s, call.input.name, call.input.year, call.input.description,
                            call.input.genres, call.input.category);
      && (out.0.Ok? <==> added.Ok?)
      && (out.0.Ok? ==> out == (Ok(Created(added.value.1)), added.value.0))
      && (out.0.Ok? ==>
            && out.1 == s.(titles := out.1.titles)
            && out.0.value.key !in s.titles.rows && out.0.value.key in out.1.titles.rows
            && out.1.titles.rows[out.0.value.key].name == call.input.name
            && out.1.titles.rows[out.0.value.key].year == call.input.year)
    ensures TitleAccepts(m) && call.TitleDestroy? ==>
      && (out.0.Ok? <==> call.id in s.titles.rows)
      && (out.0.Ok? ==> out.1 == DeleteTitle(s, call.id))
  {
    if !TitleAccepts(m) then (Fail(MethodNotAllowed), s)
    else
      match call
      case TitleList => (Ok(Listed(s.titles.rows.Keys)), s)
      case TitleCreate(input) =>
        (match AddTitle(s, input.name, input.year, input.description, input.genres, input.category)
         case Ok((s', k)) => (Ok(Created(k)), s')
         case Fail(f) => (Fail(f), s))
      case TitleRetrieve(id) =>
        if id !in s.titles.rows then (Fail(NotFound), s) else (Ok(ShowTitle(s.titles.rows[id])), s)
      case TitleDestroy(id) =>
        if id !in s.titles.rows then (Fail(NotFound), s) else (Ok(Deleted), DeleteTitle(s, id))
  }

  /** A new valid account table that keeps every old key keeps every author reference valid. */
  lemma AccountsGrowKeepsValid(s: Store, users: Table<User>)
    requires Valid(s) && DirectoryValid(users) && s.users.rows.Keys <= users.rows.Keys
    ensures Valid(s.(users := users))
  {
  }

  /**
    An administrator's account save applied to the whole database: the
    account table changes as `AccountSerializers.SaveUser` states, no key is
    lost, so every review and comment keeps its author.
   */
  function SaveAccount(s: Store, target: Option<nat>, data: AccountSerializers.UserData): (r: Result<(Store, nat)>)
    requires Valid(s)
    ensures r.Ok? <==> AccountSerializers.SaveUser(s.users, target, data).Ok?
    ensures r.Ok? ==> Valid(r.value.0)
    ensures r.Ok? ==> r.value.0 == s.(users := r.value.0.users)
    ensures r.Ok? ==> s.users.rows.Keys <= r.value.0.users.rows.Keys && r.value.1 in r.value.0.users.rows
    ensures r.Ok? ==> var saved := AccountSerializers.SaveUser(s.users, target, data).value;
      r.value == (s.(users := saved.0), saved.1)
  {
    var saved := AccountSerializers.SaveUser(s.users, target, data);
    if saved.Fail? then Fail(saved.failure)
    else
      AccountsGrowKeepsValid(s, saved.value.0);
      Ok((s.(users := saved.value.0), saved.value.1))
  }

  /**
    A profile save applied to the whole database, with the username check the
    corrected serializer makes: the store stays valid and no stored username
    becomes a spelling of "me".
   */
  function SaveProfile(s: Store, self: nat, data: AccountSerializers.UserData): (r: Result<Store>)
    requires Valid(s) && self in s.users.rows
    ensures r.Ok? <==> AccountSerializers.SaveMeValidated(s.users, self, data).Ok?
    ensures r.Ok? ==> Valid(r.value)
    ensures r.Ok? ==> r.value == s.(users := r.value.users) && r.value.users.rows.Keys == s.users.rows.Keys
    ensures r.Ok? && AccountSerializers.NoReservedUsername(s.users) ==> AccountSerializers.NoReservedUsername(r.value.users)
    ensures r.Ok? ==> r.value.users == AccountSerializers.SaveMeValidated(s.users, self, data).value
    ensures r.Ok? ==> r.value.users.rows[self].role == s.users.rows[self].role
  {
    var users :- AccountSerializers.SaveMeValidated(s.users, self, data);
    AccountsGrowKeepsValid(s, users);
    Ok(s.(users := users))
  }
}

=== FILE: catalog.dfy ===
/**
  The review database: categories, genres, titles, reviews and comments, the
  account table they refer to, the constraints the models declare (unique
  slugs, scores from 1 to 10, one review per author and title), and what a
  delete does to the rows that refer to the deleted one (CASCADE, SET_NULL).
 */
module Catalog {
  import opened Http
  import opened Tables
  import opened Accounts

  /** How much of a comment's text its string form shows. */
  const TEXT_LIMIT: nat := 50

  const SCORE_MIN: int := 1
  const SCORE_MAX: int := 10
  const SCORE_DEFAULT: int := 1

  /** A category or a genre. */
  datatype NameSlug = NameSlug(name: string, slug: string)

  /** `category` is None once the category is deleted; `genres` are genre keys. */
  datatype Title = Title(name: string, year: int, description: string, genres: set<nat>, category: Option<nat>)

  datatype Review = Review(text: string, title: nat, author: nat, score: int)

  datatype Comment = Comment(text: string, review: nat, author: nat)

  datatype Store = Store(
    users: Table<User>,
    categories: Table<NameSlug>,
    genres: Table<NameSlug>,
    titles: Table<Title>,
    reviews: Table<Review>,
    comments: Table<Comment>)

  predicate ScoreInRange(score: int) {
    SCORE_MIN <= score <= SCORE_MAX
  }

  /** No two rows share a slug. */
  predicate SlugsUnique(m: map<nat, NameSlug>) {
    forall a, b :: a in m && b in m && a != b ==> m[a].slug != m[b].slug
  }

  /** The unique_author_title constraint. */
  predicate OneReviewPerAuthorAndTitle(m: map<nat, Review>) {
    forall a, b :: a in m && b in m && a != b ==> m[a].author != m[b].author || m[a].title != m[b].title
  }

  predicate TitleRefsValid(s: Store) {
    forall t :: t in s.titles.rows ==>
      && (s.titles.rows[t].category.Some? ==> s.titles.rows[t].category.value in s.categories.rows)
      && s.titles.rows[t].genres <= s.genres.rows.Keys
  }

  predicate ReviewRefsValid(s: Store) {
    forall r :: r in s.reviews.rows ==>
      && s.reviews.rows[r].title in s.titles.rows
      && s.reviews.rows[r].author in s.users.rows
      && ScoreInRange(s.reviews.rows[r].score)
  }

  predicate CommentRefsValid(s: Store) {
    forall c :: c in s.comments.rows ==>
      && s.comments.rows[c].review in s.reviews.rows
      && s.comments.rows[c].author in s.users.rows
  }

  /** Every state the database can be in. */
  predicate Valid(s: Store) {
    && DirectoryValid(s.users)
    && KeysBelowNext(s.categories) && KeysBelowNext(s.genres) && KeysBelowNext(s.titles)
    && KeysBelowNext(s.reviews) && KeysBelowNext(s.comments)
    && SlugsUnique(s.categories.rows) && SlugsUnique(s.genres.rows)
    && OneReviewPerAuthorAndTitle(s.reviews.rows)
    && TitleRefsValid(s) && ReviewRefsValid(s) && CommentRefsValid(s)
  }

  /** A freshly migrated database. */
  function EmptyStore(): (s: Store)
    ensures Valid(s)
    ensures s.reviews.rows == map[] && s.titles.rows == map[] && s.users.rows == map[]
  {
    Store(Table(map[], 0), Table(map[], 0), Table(map[], 0), Table(map[], 0), Table(map[], 0), Table(map[], 0))
  }

  /** `author` has a review of `title`. */
  predicate HasReview(s: Store, author: nat, title: nat) {
    exists k :: k in s.reviews.rows && s.reviews.rows[k].author == author && s.reviews.rows[k].title == title
  }

  /** The one row with this slug, if there is one. */
  function FindSlug(m: map<nat, NameSlug>, slug: string): (r: Option<nat>)
    requires SlugsUnique(m)
    ensures r.Some? <==> exists k :: k in m && m[k].slug == slug
    ensures r.Some? ==> r.value in m && m[r.value].slug == slug
  {
    if exists k :: k in m && m[k].slug == slug then
      var k :| k in m && m[k].slug == slug;
      Some(k)
    else
      None
  }

  /** An insert into a category or genre table, refused when the slug is taken. */
  function AddNameSlug(t: Table<NameSlug>, name: string, slug: string): (r: Result<(Table<NameSlug>, nat)>)
    requires KeysBelowNext(t) && SlugsUnique(t.rows)
    ensures r.Ok? <==> 0 < |name| && 0 < |slug| && FindSlug(t.rows, slug).None?
    ensures |name| == 0 || |slug| == 0 ==> r == Fail(Invalid(FieldBlank))
    ensures r.Fail? && 0 < |name| && 0 < |slug| ==> r.failure == Invalid(SlugTaken)
    ensures r.Ok? ==> r.value.1 !in t.rows && r.value.0.rows == t.rows[r.value.1 := NameSlug(name, slug)]
    ensures r.Ok? ==> KeysBelowNext(r.value.0) && SlugsUnique(r.value.0.rows)
  {
    if |name| == 0 || |slug| == 0 then Fail(Invalid(FieldBlank))
    else if FindSlug(t.rows, slug).Some? then Fail(Invalid(SlugTaken))
    else Ok(Insert(t, NameSlug(name, slug)))
  }

  function AddCategory(s: Store, name: string, slug: string): (r: Result<(Store, nat)>)
    requires Valid(s)
    ensures r.Ok? <==> 0 < |name| && 0 < |slug| && FindSlug(s.categories.rows, slug).None?
    ensures r.Fail? ==> r.failure == Invalid(FieldBlank) || r.failure == Invalid(SlugTaken)
    ensures r.Ok? ==> Valid(r.value.0)
    ensures r.Ok? ==> r.value.0 == s.(categories := r.value.0.categories)
    ensures r.Ok? ==> r.value.0.categories.rows == s.categories.rows[r.value.1 := NameSlug(name, slug)]
  {
    var (t, k) :- AddNameSlug(s.categories, name, slug);
    Ok((s.(categories := t), k))
  }

  function AddGenre(s: Store, name: string, slug: string): (r: Result<(Store, nat)>)
    requires Valid(s)
    ensures r.Ok? <==> 0 < |name| && 0 < |slug| && FindSlug(s.genres.rows, slug).None?
    ensures r.Fail? ==> r.failure == Invalid(FieldBlank) || r.failure == Invalid(SlugTaken)
    ensures r.Ok? ==> Valid(r.value.0)
    ensures r.Ok? ==> r.value.0 == s.(genres := r.value.0.genres)
    ensures r.Ok? ==> r.value.0.genres.rows == s.genres.rows[r.value.1 := NameSlug(name, slug)]
  {
    var (t, k) :- AddNameSlug(s.genres, name, slug);
    Ok((s.(genres := t), k))
  }

  /**
    Deleting a category by slug: its titles stay and lose their category
    (SET_NULL); nothing else changes.
   */
  function DeleteCategory(s: Store, slug: string): (r: Result<Store>)
    requires Valid(s)
    ensures r.Ok? <==> FindSlug(s.categories.rows, slug).Some?
    ensures r.Fail? ==> r.failure == NotFound
    ensures r.Ok? ==> Valid(r.value)
    ensures r.Ok? ==> forall k :: k in r.value.categories.rows <==> k in s.categories.rows && s.categories.rows[k].slug != slug
    ensures r.Ok? ==> forall k :: k in r.value.categories.rows ==> r.value.categories.rows[k] == s.categories.rows[k]
    ensures r.Ok? ==> r.value.titles.rows.Keys == s.titles.rows.Keys
    ensures r.Ok? ==> forall t :: t in s.titles.rows ==>
      var before := s.titles.rows[t];
      var after := r.value.titles.rows[t];
      && after == before.(category := after.category)
      && (if before.category.Some? && before.category.value !in r.value.categories.rows
          then after.category.None? else after.category == before.category)
    ensures r.Ok? ==> r.value == s.(categories := r.value.categories, titles := r.value.titles)
  {
    match FindSlug(s.categories.rows, slug)
    case None => Fail(NotFound)
    case Some(id) =>
      var s' := s.(
        categories := Table(s.categories.rows - {id}, s.categories.next),
        titles := Apply(s.titles, (t: Title) => if t.category == Some(id) then t.(category := None) else t));
      assert forall k :: k in s'.categories.rows <==> k in s.categories.rows && s.categories.rows[k].slug != slug;
      Ok(s')
  }

  /**
    Deleting a genre by slug: the titles stay and lose the link to it; nothing
    else changes.
   */
  function DeleteGenre(s: Store, slug: string): (r: Result<Store>)
    requires Valid(s)
    ensures r.Ok? <==> FindSlug(s.genres.rows, slug).Some?
    ensures r.Fail? ==> r.failure == NotFound
    ensures r.Ok? ==> Valid(r.value)
    ensures r.Ok? ==> forall k :: k in r.value.genres.rows <==> k in s.genres.rows && s.genres.rows[k].slug != slug
    ensures r.Ok? ==> forall k :: k in r.value.genres.rows ==> r.value.genres.rows[k] == s.genres.rows[k]
    ensures r.Ok? ==> r.value.titles.rows.Keys == s.titles.rows.Keys
    ensures r.Ok? ==> forall t :: t in s.titles.rows ==>
      var before := s.titles.rows[t];
      var after := r.value.titles.rows[t];
      after == before.(genres := before.genres * r.value.genres.rows.Keys)
    ensures r.Ok? ==> r.value == s.(genres := r.value.genres, titles := r.value.titles)
  {
    match FindSlug(s.genres.rows, slug)
    case None => Fail(NotFound)
    case Some(id) =>
      var s' := s.(
        genres := Table(s.genres.rows - {id}, s.genres.next),
        titles := Apply(s.titles, (t: Title) => t.(genres := t.genres - {id})));
      assert forall k :: k in s'.genres.rows <==> k in s.genres.rows && s.genres.rows[k].slug != slug;
      assert forall t :: t in s.titles.rows ==> s.titles.rows[t].genres - {id} == s.titles.rows[t].genres * s'.genres.rows.Keys;
      Ok(s')
  }

  /** The genre keys a set of slugs names. */
  function GenresBySlug(m: map<nat, NameSlug>, slugs: set<string>): set<nat> {
    set k | k in m && m[k].slug in slugs
  }

  /**
    A new title, its category and genres given by slug as the write serializer
    takes them; a blank name or an unknown slug is refused.
   */
  function AddTitle(s: Store, name: string, year: int, description: string, genreSlugs: set<string>, categorySlug: string): (r: Result<(Store, nat)>)
    requires Valid(s)
    ensures r.Ok? <==>
      && 0 < |name|
      && FindSlug(s.categories.rows, categorySlug).Some?
      && forall g :: g in genreSlugs ==> FindSlug(s.genres.rows, g).Some?
    ensures |name| == 0 ==> r == Fail(Invalid(FieldBlank))
    ensures r.Fail? && 0 < |name| ==> r.failure == Invalid(UnknownSlug)
    ensures r.Ok? ==> Valid(r.value.0)
    ensures r.Ok? ==> r.value.1 !in s.titles.rows && r.value.1 in r.value.0.titles.rows
    ensures r.Ok? ==> var t := r.value.0.titles.rows[r.value.1];
      && t.name == name && t.year == year && t.description == description
      && t.category.Some? && t.category.value in s.categories.rows
      && s.categories.rows[t.category.value].slug == categorySlug
      && t.genres <= s.genres.rows.Keys
      && (forall g :: g in t.genres ==> s.genres.rows[g].slug in genreSlugs)
      && (forall g :: g in genreSlugs ==> exists k :: k in t.genres && s.genres.rows[k].slug == g)
    ensures r.Ok? ==> r.value.0 == s.(titles := r.value.0.titles)
    ensures r.Ok? ==> r.value.0.titles.rows.Keys == s.titles.rows.Keys + {r.value.1}
    ensures r.Ok? ==> forall k :: k in s.titles.rows ==> k in r.value.0.titles.rows && r.value.0.titles.rows[k] == s.titles.rows[k]
  {
    if |name| == 0 then Fail(Invalid(FieldBlank))
    else match FindSlug(s.categories.rows, categorySlug)
    case None => Fail(Invalid(UnknownSlug))
    case Some(c) =>
      if exists g :: g in genreSlugs && FindSlug(s.genres.rows, g).None? then Fail(Invalid(UnknownSlug))
      else
        var genres := GenresBySlug(s.genres.rows, genreSlugs);
        assert forall g :: g in genreSlugs ==> exists k :: k in genres && s.genres.rows[k].slug == g by {
          forall g | g in genreSlugs
            ensures exists k :: k in genres && s.genres.rows[k].slug == g
          {
            var k := FindSlug(s.genres.rows, g).value;
            assert k in genres;
          }
        }
        var (t, k) := Insert(s.titles, Title(name, year, description, genres, Some(c)));
        Ok((s.(titles := t), k))
  }

  /**
    Deleting a title: its reviews go (CASCADE) and, through them, their
    comments; every other row stays as it was.
   */
  function DeleteTitle(s: Store, id: nat): (r: Store)
    requires Valid(s)
    ensures Valid(r)
    ensures r.titles.rows == s.titles.rows - {id}
    ensures forall k :: k in r.reviews.rows <==> k in s.reviews.rows && s.reviews.rows[k].title != id
    ensures forall c :: c in r.comments.rows <==> c in s.comments.rows && s.comments.rows[c].review in r.reviews.rows
    ensures forall k :: k in r.reviews.rows ==> r.reviews.rows[k] == s.reviews.rows[k]
    ensures forall c :: c in r.comments.rows ==> r.comments.rows[c] == s.comments.rows[c]
    ensures r.users == s.users && r.categories == s.categories && r.genres == s.genres
  {
    var reviews := Where(s.reviews, (v: Review) => v.title != id);
    var comments := Where(s.comments, (c: Comment) => c.review in reviews.rows);
    s.(titles := Table(s.titles.rows - {id}, s.titles.next), reviews := reviews, comments := comments)
  }

  /** Deleting a review: exactly its comments go with it (CASCADE). */
  function DeleteReview(s: Store, id: nat): (r: Store)
    requires Valid(s)
    ensures Valid(r)
    ensures r.reviews.rows == s.reviews.rows - {id}
    ensures forall c :: c in r.comments.rows <==> c in s.comments.rows && s.comments.rows[c].review != id
    ensures forall c :: c in r.comments.rows ==> r.comments.rows[c] == s.comments.rows[c]
    ensures r.users == s.users && r.categories == s.categories && r.genres == s.genres && r.titles == s.titles
  {
    s.(reviews := Table(s.reviews.rows - {id}, s.reviews.next),
       comments := Where(s.comments, (c: Comment) => c.review != id))
  }

  /** Removing one account keeps the account table's invariant. */
  lemma DeleteAccountKeepsDirectory(d: Table<User>, id: nat)
    requires DirectoryValid(d)
    ensures DirectoryValid(Table(d.rows - {id}, d.next))
  {
  }

  /**
    Deleting an account: its reviews and its comments go (CASCADE), and so do
    the comments on its reviews.
   */
  function DeleteUser(s: Store, id: nat): (r: Store)
    requires Valid(s)
    ensures Valid(r)
    ensures r.users.rows == s.users.rows - {id}
    ensures forall k :: k in r.reviews.rows <==> k in s.reviews.rows && s.reviews.rows[k].author != id
    ensures forall c :: c in r.comments.rows <==>
      c in s.comments.rows && s.comments.rows[c].author != id && s.comments.rows[c].review in r.reviews.rows
    ensures forall k :: k in r.reviews.rows ==> r.reviews.rows[k] == s.reviews.rows[k]
    ensures forall c :: c in r.comments.rows ==> r.comments.rows[c] == s.comments.rows[c]
    ensures r.categories == s.categories && r.genres == s.genres && r.titles == s.titles
  {
    var users := Table(s.users.rows - {id}, s.users.next);
    var reviews := Where(s.reviews, (v: Review) => v.author != id);
    var comments := Where(s.comments, (c: Comment) => c.author != id && c.review in reviews.rows);
    DeleteAccountKeepsDirectory(s.users, id);
    var r := s.(users := users, reviews := reviews, comments := comments);
    assert ReviewRefsValid(r);
    assert CommentRefsValid(r);
    r
  }

  /**
    The insert of a review. Score validators run before it, in the
    serializer; the database itself refuses a second review by the same
    author of the same title, and dangling keys.
   */
  function InsertReview(s: Store, text: string, title: nat, author: nat, score: int): (r: Result<(Store, nat)>)
    requires Valid(s) && ScoreInRange(score)
    ensures r.Ok? <==> title in s.titles.rows && author in s.users.rows && !HasReview(s, author, title)
    ensures r.Fail? ==> r.failure == Integrity
    ensures r.Ok? ==> Valid(r.value.0)
    ensures r.Ok? ==> r.value.1 !in s.reviews.rows
    ensures r.Ok? ==> r.value.0.reviews.rows == s.reviews.rows[r.value.1 := Review(text, title, author, score)]
    ensures r.Ok? ==> r.value.0 == s.(reviews := r.value.0.reviews)
  {
    if title !in s.titles.rows || author !in s.users.rows || HasReview(s, author, title) then Fail(Integrity)
    else
      var (t, k) := Insert(s.reviews, Review(text, title, author, score));
      Ok((s.(reviews := t), k))
  }

  /** The insert of a comment; the database refuses dangling keys. */
  function InsertComment(s: Store, text: string, review: nat, author: nat): (r: Result<(Store, nat)>)
    requires Valid(s)
    ensures r.Ok? <==> review in s.reviews.rows && author in s.users.rows
    ensures r.Fail? ==> r.failure == Integrity
    ensures r.Ok? ==> Valid(r.value.0)
    ensures r.Ok? ==> r.value.1 !in s.comments.rows
    ensures r.Ok? ==> r.value.0.comments.rows == s.comments.rows[r.value.1 := Comment(text, review, author)]
    ensures r.Ok? ==> r.value.0 == s.(comments := r.value.0.comments)
  {
    if review !in s.reviews.rows || author !in s.users.rows then Fail(Integrity)
    else
      var (t, k) := Insert(s.comments, Comment(text, review, author));
      Ok((s.(comments := t), k))
  }

  /** A save of new text and score into a stored review; title and author stay. */
  function UpdateReview(s: Store, id: nat, text: string, score: int): (r: Store)
    requires Valid(s) && id in s.reviews.rows && ScoreInRange(score)
    ensures Valid(r)
    ensures r.reviews.rows.Keys == s.reviews.rows.Keys
    ensures r.reviews.rows[id] == s.reviews.rows[id].(text := text, score := score)
    ensures forall k :: k in s.reviews.rows && k != id ==> r.reviews.rows[k] == s.reviews.rows[k]
    ensures r == s.(reviews := r.reviews)
  {
    s.(reviews := Set(s.reviews, id, s.reviews.rows[id].(text := text, score := score)))
  }

  /** A save of new text into a stored comment; review and author stay. */
  function UpdateComment(s: Store, id: nat, text: string): (r: Store)
    requires Valid(s) && id in s.comments.rows
    ensures Valid(r)
    ensures r.comments.rows.Keys == s.comments.rows.Keys
    ensures r.comments.rows[id] == s.comments.rows[id].(text := text)
    ensures forall k :: k in s.comments.rows && k != id ==> r.comments.rows[k] == s.comments.rows[k]
    ensures r == s.(comments := r.comments)
  {
    s.(comments := Set(s.comments, id, s.comments.rows[id].(text := text)))
  }

  /** Deleting one comment; nothing refers to comments. */
  function DeleteComment(s: Store, id: nat): (r: Store)
    requires Valid(s)
    ensures Valid(r)
    ensures r.comments.rows == s.comments.rows - {id}
    ensures r == s.(comments := r.comments)
  {
    s.(comments := Table(s.comments.rows - {id}, s.comments.next))
  }

  /** The string form of a comment: its text cut to TEXT_LIMIT characters. */
  function CommentStr(c: Comment): (r: string)
    ensures |r| <= TEXT_LIMIT
    ensures |r| == if |c.text| < TEXT_LIMIT then |c.text| else TEXT_LIMIT
    ensures r <= c.text
  {
    if |c.text| <= TEXT_LIMIT then c.text else c.text[..TEXT_LIMIT]
  }
}

=== FILE: http.dfy ===
/**
  The request vocabulary shared by the permission classes, the serializers
  and the viewsets: HTTP methods, optional values, and the outcome of a
  request (a value, or the error the framework turns into a response).
 */
module Http {

  datatype Option<T> = None | Some(value: T) {

    /** The wrapped value, or `default` when there is none. */
    function GetOr(default: T): T {
      match this
      case Some(v) => v
      case None => default
    }
  }

  /** The methods a request can carry. */
  datatype Method = Get | Head | Options | Post | Put | Patch | Delete | Trace

  /** The lower-case name a view's `http_method_names` list is matched against. */
  function MethodName(m: Method): string {
    match m
    case Get => "get"
    case Head => "head"
    case Options => "options"
    case Post => "post"
    case Put => "put"
    case Patch => "patch"
    case Delete => "delete"
    case Trace => "trace"
  }

  /** The framework's SAFE_METHODS: GET, HEAD and OPTIONS. */
  predicate IsSafe(m: Method) {
    m == Get || m == Head || m == Options
  }

  /** Why a submitted value was refused. */
  datatype Reason =
    | FieldRequired      // a required field is missing
    | FieldBlank         // a required text field is empty
    | TooLong            // a text field exceeds its max_length
    | ReservedUsername   // the username "me", in any letter case
    | UsernameTaken      // another account already has this username
    | EmailTaken         // another account already has this email
    | NotAChoice         // a role value outside the declared choices
    | ScoreOutOfRange    // a review score outside 1..10
    | DuplicateReview    // the author already reviewed this title
    | SlugTaken          // a category or genre with this slug exists
    | UnknownSlug        // a slug that names no category or genre

  /** How a request fails, and so which response the client gets. */
  datatype Failure =
    | Invalid(reason: Reason)    // ValidationError inside a serializer: 400
    | NotFound                   // get_object_or_404 found nothing: 404
    | MethodNotAllowed           // 405
    | Unhandled(reason: Reason)  // a Django ValidationError raised outside a serializer: 500
    | Integrity                  // a database constraint refused the write: 500

  datatype Result<T> = Ok(value: T) | Fail(failure: Failure) {

    predicate IsFailure() {
      Fail?
    }

    function PropagateFailure<U>(): Result<U>
      requires Fail?
    {
      Fail(failure)
    }

    function Extract(): T
      requires Ok?
    {
      value
    }
  }

  /** The response status each failure produces. */
  function StatusCode(f: Failure): nat {
    match f
    case Invalid(_) => 400
    case NotFound => 404
    case MethodNotAllowed => 405
    case Unhandled(_) => 500
    case Integrity => 500
  }
}

=== FILE: permissions.dfy ===
/**
  The three permission classes. Each is a pure decision over the request
  method and the caller; none reads or changes any stored state.
 */
module Permissions {
  import opened Http
  import opened Accounts

  /** Who sent the request: nobody, or a stored account. */
  datatype Caller = Anonymous | Authenticated(user: User)

  /**
    AdminAnonPermission (api/permission.py): read-only access for everyone,
    write access for authenticated admins and staff.
   */
  function AdminAnon(m: Method, c: Caller): (granted: bool)
    ensures IsSafe(m) ==> granted
    ensures !IsSafe(m) && c.Anonymous? ==> !granted
    ensures !IsSafe(m) && c.Authenticated? && c.user.role == AdminRole ==> granted
    ensures !IsSafe(m) && c.Authenticated? && c.user.isStaff ==> granted
    ensures !IsSafe(m) && c.Authenticated? && !c.user.isStaff && c.user.role != AdminRole ==> !granted
  {
    IsSafe(m) || (c.Authenticated? && (RoleValue(c.user.role) == ADMIN || c.user.isStaff))
  }

  /** The decision of AdminAnon reads nothing of the account beyond its role and staff flag. */
  lemma AdminAnonReadsRoleAndStaffOnly(m: Method, u: User, v: User)
    requires u.role == v.role && u.isStaff == v.isStaff
    ensures AdminAnon(m, Authenticated(u)) == AdminAnon(m, Authenticated(v))
  {
  }

  /** What `has_permission` of the users' IsAdmin returns, or that it raises. */
  datatype Decision = Allow | Deny | RaiseMethodNotAllowed

  /**
    IsAdmin of users/v1/permission.py: PUT is refused before anything else,
    every other method is open to authenticated admins only.
   */
  function IsAdminRejectingPut(m: Method, c: Caller): (d: Decision)
    ensures m == Put <==> d == RaiseMethodNotAllowed
    ensures d == Allow <==> m != Put && c.Authenticated? && c.user.role == AdminRole
  {
    if m == Put then RaiseMethodNotAllowed
    else if c.Authenticated? && IsAdmin(c.user) then Allow
    else Deny
  }

  /**
    IsAdmin of users/v1/permissions.py: authenticated admins and superusers,
    whatever the method.
   */
  function IsAdminOrSuperuser(m: Method, c: Caller): (granted: bool)
    ensures c.Anonymous? ==> !granted
    ensures c.Authenticated? && c.user.isSuperuser ==> granted
    ensures c.Authenticated? && c.user.role == AdminRole ==> granted
    ensures c.Authenticated? && !c.user.isSuperuser && c.user.role != AdminRole ==> !granted
  {
    c.Authenticated? && (IsAdmin(c.user) || c.user.isSuperuser)
  }

  /** IsAdminOrSuperuser treats every method, PUT included, alike. */
  lemma SuperuserVersionIgnoresMethod(m: Method, n: Method, c: Caller)
    ensures IsAdminOrSuperuser(m, c) == IsAdminOrSuperuser(n, c)
  {
  }

  /**
    Whatever the PUT-rejecting IsAdmin allows, the superuser version and
    AdminAnonPermission allow too; off PUT, the two IsAdmin classes differ only
    on superusers who are not admins.
   */
  lemma RejectingPutIsStrictest(m: Method, c: Caller)
    ensures IsAdminRejectingPut(m, c) == Allow ==> IsAdminOrSuperuser(m, c) && AdminAnon(m, c)
    ensures m != Put && (c.Anonymous? || !c.user.isSuperuser) ==>
              (IsAdminRejectingPut(m, c) == Allow <==> IsAdminOrSuperuser(m, c))
  {
  }
}

=== FILE: tables.dfy ===
/**
  A database table as the ORM sees it: rows by primary key, and the next key
  the table's sequence will hand out. Keys are never reused.
 */
module Tables {

  datatype Table<T> = Table(rows: map<nat, T>, next: nat)

  /** Every stored key was handed out by the sequence before. */
  predicate KeysBelowNext<T>(t: Table<T>) {
    forall k :: k in t.rows ==> k < t.next
  }

  /** INSERT: the new row gets a key no stored row has. */
  function Insert<T>(t: Table<T>, v: T): (r: (Table<T>, nat))
    requires KeysBelowNext(t)
    ensures r.1 !in t.rows
    ensures r.0.rows == t.rows[r.1 := v]
    ensures KeysBelowNext(r.0)
  {
    (Table(t.rows[t.next := v], t.next + 1), t.next)
  }

  /** DELETE ... WHERE NOT keep: the surviving rows keep their keys and values. */
  function Where<T>(t: Table<T>, keep: T -> bool): (r: Table<T>)
    ensures forall k :: k in r.rows <==> k in t.rows && keep(t.rows[k])
    ensures forall k :: k in r.rows ==> r.rows[k] == t.rows[k]
    ensures r.next == t.next
    ensures KeysBelowNext(t) ==> KeysBelowNext(r)
  {
    Table(map k | k in t.rows && keep(t.rows[k]) :: t.rows[k], t.next)
  }

  /** UPDATE of every row through `f`: no row appears or disappears. */
  function Apply<T>(t: Table<T>, f: T -> T): (r: Table<T>)
    ensures r.rows.Keys == t.rows.Keys
    ensures forall k :: k in r.rows ==> r.rows[k] == f(t.rows[k])
    ensures r.next == t.next
    ensures KeysBelowNext(t) ==> KeysBelowNext(r)
  {
    Table(map k | k in t.rows :: f(t.rows[k]), t.next)
  }

  /** UPDATE of one stored row. */
  function Set<T>(t: Table<T>, k: nat, v: T): (r: Table<T>)
    requires k in t.rows
    ensures r.rows.Keys == t.rows.Keys
    ensures r.rows[k] == v
    ensures forall j :: j in t.rows && j != k ==> r.rows[j] == t.rows[j]
    ensures KeysBelowNext(t) ==> KeysBelowNext(r)
  {
    Table(t.rows[k := v], t.next)
  }
}
